=== FILE: README.md ===
# Inference gateway: the prediction route

This project models the `POST /api/predict` route of a small deepfake-detection
gateway (`server.js`). The route takes one uploaded image and writes it to a
temporary file. It then runs an external predictor on that file, removes the
file, and turns the predictor's standard output into a JSON verdict. Output that
cannot be read degrades to a fixed `UNKNOWN`/50 result instead of an error.

The model is a set of pure functions:

- `Upload` covers the upload middleware's configuration: one file in the `image`
  field, `image/` MIME types only, and a 10 MiB ceiling.
- `JsString` covers the JavaScript string operations the route uses: `trim`,
  `startsWith`, `indexOf`, `lastIndexOf` and `substring`.
- `Invoker` covers the fixed temporary path, the predictor's arguments, and the
  chunk-by-chunk accumulation of its output.
- `Decoder` covers the three-stage result decoder. `JSON.parse` is a parameter
  `parse: string -> Option<Json>`, so every decoder property holds for any parser.
- `PredictRoute.Handle` is the whole route. It maps the environment's choices to
  a response and an ordered trace of side effects (write, spawn, unlink,
  respond). The environment's choices are: the file part, whether the write
  succeeds, how the call to `spawn` turns out, the predictor's exit code, its
  stdout and stderr chunks, and whether the unlink succeeds.

Behaviour of the code that is easy to miss, and that the model keeps:

- The fallback note is `"Could not process result, using default values"`, with
  a capital C, as the code writes it.
- A strict parse is returned whatever JSON value it yields. It need not be an
  object, and nothing checks its shape or its confidence range.
- A file refused by the filter, the size limit or the field check never reaches
  the route. The middleware passes the error to Express's default error
  handler (`Forwarded` in the model). Neither the filter's plain `Error` nor
  multer's size error carries a status, so that handler answers 500: a refused
  upload reaches the client as a server error, not as a 400-class rejection.
  The handler is framework code, so the model records the refusal and not the
  status.
- Every request writes to the same fixed file `temp_image.jpg`; there is no
  per-request file.
- When the write of the temporary file fails, no removal is attempted.
- The exit code is `null` when a signal ends the predictor. The model writes
  this as `None`. Because `null !== 0`, it gives a 500 like any other non-zero
  code.
- A `spawn` call that throws (any error other than EACCES, EAGAIN, EMFILE,
  ENFILE and ENOENT) lands in the outer catch: the reply is 500, and the
  temporary file already written is never removed.
- A predictor that cannot be started (ENOENT, say, when the hard-coded
  interpreter `venv-tf/Scripts/python.exe` is missing) is reported through an
  `error` event on the child process. The route attaches no listener for it,
  so the event is thrown as an uncaught exception and the server process ends:
  the client gets no reply and the temporary file stays behind (`Crashed` in
  the model). On a host without that interpreter this is what every request
  with a valid image does.
- When the process is out of file descriptors (EMFILE, ENFILE), `spawn` also
  queues an `error` event, but it returns before creating the child's output
  streams. Attaching the `data` listener to the missing stream then throws, so
  the outer catch replies 500, and the unhandled `error` event ends the server
  just afterwards.

## Model

| member | source | states |
|---|---|---|
| Upload.FileFilter | server.js:24-30 | A file is admitted exactly when its MIME type starts with `image/`. Every other type is refused with the error "Only image files are allowed". |
| Upload.FilterAcceptsExactlyImageTypes | server.js:25-29 | Every `image/...` type passes. Any type that passes is `image/` followed by the rest. `text/plain` and upper-case `IMAGE/PNG` are refused as inputs to the filter; a client's upper-case type never reaches it, since the multipart parser lower-cases it first. |
| Upload.Intake | server.js:21-33 | With no file part, the route runs with no file. A file part is handed over unchanged only if it is in the `image` field, passes the filter, and is at most 10 MiB. Otherwise it is refused. |
| Upload.SizeCeilingInclusive | server.js:23 | The ceiling is 10 * 1024 * 1024 = 10485760 bytes and is inclusive, as multer behaves on busboy 0.x. One byte more is refused with FileTooLarge. |
| Upload.FilterBeforeSizeLimit | server.js:21-30 | The filter decides before the size limit: an oversized non-image is refused as a non-image. |
| JsString.StartsWith | server.js:25 | `startsWith` holds exactly when the prefix fits and equals the string's first characters. |
| JsString.TrimStart | server.js:75 | The result is a suffix of the input. Everything dropped in front of it is whitespace, and its first character is not. |
| JsString.TrimEnd | server.js:75 | The result is a prefix of the input. Everything dropped behind it is whitespace, and its last character is not. |
| JsString.Trim | server.js:75 | Neither end of the trimmed text is whitespace, and it is no longer than the input. Which text that is exactly is pinned by `JsString.TrimRecoversCore`. |
| JsString.SplitAtTrimStart | server.js:75 | Every text is some run of whitespace followed by what `TrimStart` keeps. |
| JsString.SplitAtTrimEnd | server.js:75 | Every text is what `TrimEnd` keeps followed by some run of whitespace. |
| JsString.WhitespaceIsLowOrHigh | server.js:75 | No whitespace code point lies strictly between the space and the no-break space, so braces and other printable ASCII are never trimmed. |
| JsString.TrimmedIsFixed | server.js:75 | A text with no whitespace at either end trims to itself. |
| JsString.TrimRecoversCore | server.js:75 | Any whitespace around a text whose ends are not whitespace trims back to exactly that text. |
| JsString.TrimAroundCore | server.js:75 | Trimming text around a middle part with non-whitespace ends removes only the outer whitespace of the surrounding parts. |
| JsString.TrimIdempotent | server.js:75 | Trimming twice equals trimming once. |
| JsString.IndexOf | server.js:85 | The result is the first position of the character, or -1 exactly when the character is absent. |
| JsString.LastIndexOf | server.js:86 | The result is the last position of the character, or -1 exactly when the character is absent. |
| JsString.Substring | server.js:89 | In-range bounds give that slice. Reversed bounds are swapped. |
| JsonValue.ErrorBody | server.js:71 | The error envelope is an object whose only member is `error`, holding the message. |
| JsonValue.FallbackShape | server.js:98-102 | The degraded body has prediction `UNKNOWN`, confidence 50 and the fixed note, and no `error` member. |
| Invoker.Accumulate | server.js:49-54 | Appending chunk by chunk yields the starting text followed by all chunks joined in arrival order. |
| Invoker.SplitChunkInvisible | server.js:52-54 | Delivering one chunk as two pieces accumulates to the same text. |
| Decoder.BraceWindow | server.js:85-88 | Extraction is attempted exactly when some `{` comes before some `}`. The window then runs from the first `{` through the last `}` and lies within the trimmed text. |
| Decoder.MaximalBraceSpanIsWindow | server.js:85-89 | The stretch from the first `{` through the last `}` is unique, and it is the window the route cuts. |
| Decoder.WindowCoversEveryBracePair | server.js:85-88 | Every `{` that comes before some `}` lies inside the window, and so does that `}`. |
| Decoder.Candidate | server.js:85-89 | The extracted candidate exists exactly when a `{` precedes a `}`. It starts with `{`, ends with `}`, and is the maximal brace span of the text. |
| Decoder.Decode | server.js:75-102 | The body is the strict parse of the trimmed output when it succeeds. Otherwise it is the parse of the trimmed output's maximal brace span, when such a span exists and parses. Otherwise it is the fixed degraded body. |
| Decoder.StagesChooseBody | server.js:78-102 | The same three-way choice, stated for the body of the stages over the trimmed text. |
| Decoder.Stages | server.js:78-102 | The strict stage wins exactly when the text parses. Extraction is used only after the strict parse fails, and only with the maximal brace span. The fallback is used exactly when both fail or no span exists. |
| Decoder.DecodeIgnoresSurroundingWhitespace | server.js:75 | Decoding the trimmed output gives the same body as decoding the raw output. |
| Decoder.StrictParseReturnedUnchanged | server.js:78-79 | A strict parse is sent back unchanged, with no shape or range check. |
| Decoder.NoisyPayloadRecovered | server.js:84-92 | A payload is recovered when the noise before it has no `{` and the noise after it has no `}`. |
| Decoder.PayloadExtracted | server.js:84-92 | When the strict parse fails, a maximal brace span that parses is the body. |
| Decoder.BracedIsTrimmed | server.js:75-89 | A text from `{` to `}` has no whitespace to trim at either end. |
| Decoder.BracedTextGetsNoSecondChance | server.js:84-102 | If the trimmed text is itself braced and fails to parse, the second stage re-parses the same text and the result is the fallback. |
| Decoder.NoBracesDegrades | server.js:88-102 | Unparseable text with no `{` before a `}` gives the fallback body. |
| Decoder.NonObjectOnlyFromStrictParse | server.js:78-102 | Suppose the parser turns every brace-initial text it accepts into an object. Then a non-object body can only come from the strict stage: an extracted payload and the degraded body are objects. |
| PredictRoute.OnClose | server.js:61-103 | The status is 200 exactly when the exit code is 0. Otherwise the reply is 500 with the generic error body. |
| PredictRoute.Handle | server.js:33-109 | In every run the route responds at most once and only last, and a spawn follows a write of the file it reads. Unless the server crashes, each spawn is followed by a removal attempt once the predictor's `close` event arrives. A crash sends no response. Refusals leave no trace. Replies carry status 200, 400 or 500. |
| PredictRoute.SpawnThrowIsServerError | server.js:38-108 | A `spawn` that throws gives 500 with the generic error. The trace is the write and the reply only: the temporary file is never removed. |
| PredictRoute.UnstartablePredictorCrashes | server.js:47-61 | With no `error` listener on the child, the server sends no reply exactly when a valid upload was written and the predictor could not be started. The trace is then the write and the spawn, with no removal. |
| PredictRoute.NoFileIsBadRequest | server.js:34-36 | With no file the reply is 400 with `No image uploaded`. Nothing is written, spawned or removed. |
| PredictRoute.RefusedUploadNeverReachesPredictor | server.js:21-33 | A non-image or oversized upload is refused with its specific error. Nothing is written or spawned. |
| PredictRoute.WriteFailureIsServerError | server.js:39-108 | A failed temporary write gives 500 with the generic error, and the predictor is never spawned. |
| PredictRoute.WritesTheUpload | server.js:39-40 | The only write is of the uploaded bytes to the temporary path. |
| PredictRoute.UnlinkFailureSwallowed | server.js:61-66 | Whether the removal succeeds never changes the reply. |
| PredictRoute.StderrNeverInReply | server.js:50-72 | Standard error never affects the reply. |
| PredictRoute.PredictorFailureIsServerError | server.js:61-72 | A non-zero or null exit code gives 500 with the generic error, whatever stdout holds. The removal is attempted first. |
| PredictRoute.CleanExitIsOk | server.js:74-102 | After exit code 0 the reply is 200, with the joined stdout decoded through the fallback chain. |
| PredictRoute.ErrorStatusOnlyFromInfrastructure | server.js:33-108 | Among the route's own replies, a 400 comes exactly from a missing file. A 500 comes exactly from a failed write, a `spawn` that throws, or a predictor that exits with a code other than 0. Refused uploads are not the route's replies (Express answers them with 500). |
| PredictRoute.ChunkingIrrelevant | server.js:49-54 | Two chunkings of the same stdout text give the same response and trace. |

## Left out

- Process spawning and stream events are left out. This includes the fixed
  Windows path of the Python interpreter and the log lines. The predictor is
  only an exit code plus stdout and stderr chunks.
- `JSON.parse` is a parameter, because its grammar is a library's. Its JSON
  numbers are exact reals, so IEEE-754 rounding is not modelled.
- The race between concurrent requests on the shared `temp_image.jpg` is left
  out. A sequential model cannot interleave requests.
- The EMFILE/ENFILE run, a 500 reply followed by the end of the server
  process, is not one of the modelled spawn outcomes. `SpawnOutcome` covers a
  started child, a `spawn` that throws, and an `error` event with no reply.
- Which errno makes `spawn` throw and which makes it emit `error` is the
  runtime's choice. The model takes the outcome as an input (`SpawnOutcome`).
- Upload.SizeCeilingInclusive: assumes multer on busboy 0.x, which refuses a
  file only when it exceeds `fileSize`. The package manifest is not part of
  this model, so the version is not fixed. On busboy 1.x (multer 1.4.5-lts.1
  and later, and 2.x), a file of exactly 10485760 bytes would be refused as
  well.
- Express's default error handler is not modelled. A `Forwarded` refusal
  carries no status, and the 500 that handler sends is not asserted.
- Client disconnects are left out. The route does not react to them.
- PredictRoute.ChunkingIrrelevant: chunks are already-decoded strings.
  `data.toString()` decoding each buffer separately is not modelled, so a
  multi-byte character split across two chunks is not covered.
- PredictRoute.Handle: a started predictor is assumed to deliver its `close`
  event. The route sets no timeout and kills no child, and the removal runs
  only inside the `close` callback. So a predictor that never exits, or whose
  output stays open, leaves the request unanswered and `temp_image.jpg` on
  disk while the server keeps running. The model has no such run.
- JsString.IndexOf, JsString.LastIndexOf, JsString.Substring and
  JsString.StartsWith: positions count code points rather than UTF-16 code units.
  The extracted text and the prefix test come out the same either way.
- Upload.Intake: takes the part's type as multer hands it to the filter,
  already lower-cased and stripped of parameters by the multipart parser.
  That normalisation belongs to the parser and is not modelled.
- Upload.Intake: models one file part. Multer's handling of several files, of
  parts without a filename, and of its other limits is left out.
- Express, multer and cors wiring are left out. So are the static routes,
  `GET /api/status` and `listen`. They are framework plumbing.
- The feature scoring and model loading in `predict.py` are left out. They are
  floating-point numerics and file I/O.
- `convert_model.py` (a TensorFlow conversion) and `src/lib/tfjs-utils.js` are
  left out. The shipped flow does not use `tfjs-utils.js`.
- The React pages and components are left out. They are UI.

=== FILE: decoder.dfy ===
/** The tolerant decoder the route applies to the predictor's standard
    output once it exits with code 0: a strict parse of the trimmed text,
    then a parse of the span from the first `{` to the last `}`, then the
    fixed degraded result. `JSON.parse` is a parameter: any partial parser
    may be plugged in, and every property below holds for all of them. */
module Decoder {
  import opened Optional
  import opened JsonValue
  import opened JsString

  /** `JSON.parse`: the parsed value, or `None` where it throws. */
  type Parser = string -> Option<Json>

  /** Some `{` in `text` comes before some `}`. */
  predicate OpensBeforeCloses(text: string) {
    exists i, j :: 0 <= i < j < |text| && text[i] == '{' && text[j] == '}'
  }

  /** `[i, j)` runs from the first `{` of `text` through its last `}`. */
  predicate FirstOpenLastClose(text: string, i: int, j: int) {
    && 0 <= i < j <= |text|
    && text[i] == '{' && text[j - 1] == '}'
    && '{' !in text[..i] && '}' !in text[j..]
  }

  /** `span` is the stretch of `text` from its first `{` through its last `}`. */
  ghost predicate MaximalBraceSpan(text: string, span: string) {
    exists i, j :: FirstOpenLastClose(text, i, j) && span == text[i..j]
  }

  /** There is only one such stretch. */
  lemma {:induction false} FirstLastUnique(text: string, i: int, j: int, a: int, b: int)
    requires FirstOpenLastClose(text, i, j) && FirstOpenLastClose(text, a, b)
    ensures i == a && j == b
  {
  }

  /** The bounds `[start, end)` the route computes with `indexOf('{')` and
      `lastIndexOf('}') + 1`, present exactly when it goes on to extract. */
  function BraceWindow(text: string): (w: Option<(nat, nat)>)
    ensures w.Some? <==> OpensBeforeCloses(text)
    ensures w.Some? ==> FirstOpenLastClose(text, w.value.0, w.value.1)
  {
    var start := IndexOf(text, '{');
    var end := LastIndexOf(text, '}') + 1;
    if start >= 0 && end > start then
      assert text[start] == '{' && text[end - 1] == '}';
      Some((start, end))
    else
      None
  }

  /** The maximal brace span is the window the route cuts. */
  lemma {:induction false} MaximalBraceSpanIsWindow(text: string, span: string)
    requires MaximalBraceSpan(text, span)
    ensures BraceWindow(text).Some?
    ensures span == text[BraceWindow(text).value.0..BraceWindow(text).value.1]
  {
    var i, j :| FirstOpenLastClose(text, i, j) && span == text[i..j];
    assert OpensBeforeCloses(text) by { assert text[i] == '{' && text[j - 1] == '}'; }
    var (a, b) := BraceWindow(text).value;
    FirstLastUnique(text, i, j, a, b);
  }

  /** The window covers every brace-delimited stretch of the text: any `{`
      before any `}` lies inside it. */
  lemma {:induction false} WindowCoversEveryBracePair(text: string, i: nat, j: nat)
    requires i < j < |text| && text[i] == '{' && text[j] == '}'
    ensures BraceWindow(text).Some?
    ensures BraceWindow(text).value.0 <= i && j < BraceWindow(text).value.1
  {
    assert OpensBeforeCloses(text);
    var (a, b) := BraceWindow(text).value;
    assert FirstOpenLastClose(text, a, b);
  }

  /** The candidate the route extracts, `text.substring(start, end)`, when
      the window exists: it is the maximal brace span, and there is no other. */
  function Candidate(text: string): (c: Option<string>)
    ensures c.Some? <==> OpensBeforeCloses(text)
    ensures forall span :: MaximalBraceSpan(text, span) <==> c == Some(span)
    ensures c.Some? ==> |c.value| >= 2 && c.value[0] == '{' && c.value[|c.value| - 1] == '}'
  {
    match BraceWindow(text)
    case None =>
      forall span | MaximalBraceSpan(text, span) ensures false {
        MaximalBraceSpanIsWindow(text, span);
      }
      None
    case Some((start, end)) =>
      var c := Substring(text, start, end);
      assert c == text[start..end];
      forall span ensures MaximalBraceSpan(text, span) <==> c == span {
        if MaximalBraceSpan(text, span) {
          MaximalBraceSpanIsWindow(text, span);
        }
        if c == span {
          assert FirstOpenLastClose(text, start, end);
        }
      }
      Some(c)
  }

  /** Which stage of the chain produced the body. */
  datatype Decoded =
    | Strict(value: Json)
    | Extracted(candidate: string, value: Json)
    | Fallback
  {
    /** The response body of the stage. */
    function Body(): Json {
      match this
      case Strict(v) => v
      case Extracted(_, v) => v
      case Fallback => FallbackBody
    }
  }

  /** The three stages in order over the trimmed output `text`; a later
      stage runs only when every earlier one failed. Parse failures are
      absorbed: the chain always yields a body. */
  function Stages(parse: Parser, text: string): (d: Decoded)
    ensures d.Strict? <==> parse(text).Some?
    ensures d.Strict? ==> parse(text) == Some(d.value)
    ensures d.Extracted? ==>
              && parse(text).None?
              && MaximalBraceSpan(text, d.candidate)
              && |d.candidate| >= 2 && d.candidate[0] == '{' && d.candidate[|d.candidate| - 1] == '}'
              && parse(d.candidate) == Some(d.value)
    ensures d.Fallback? <==>
              && parse(text).None?
              && forall span :: MaximalBraceSpan(text, span) ==> parse(span).None?
  {
    match parse(text)
    case Some(v) => Strict(v)
    case None =>
      match Candidate(text)
      case None => Fallback
      case Some(c) =>
        match parse(c)
        case Some(v) => Extracted(c, v)
        case None => Fallback
  }

  /** The body the route sends for predictor output `stdout` after exit code
      0: the trimmed output when it parses; otherwise its maximal brace span
      when that parses; otherwise the fixed degraded body. */
  function Decode(parse: Parser, stdout: string): (r: Json)
    ensures parse(Trim(stdout)).Some? ==> r == parse(Trim(stdout)).value
    ensures parse(Trim(stdout)).None? ==>
              forall span :: MaximalBraceSpan(Trim(stdout), span) && parse(span).Some? ==>
                r == parse(span).value
    ensures parse(Trim(stdout)).None? &&
            (forall span :: MaximalBraceSpan(Trim(stdout), span) ==> parse(span).None?) ==>
              r == FallbackBody
  {
    var text := Trim(stdout);
    StagesChooseBody(parse, text);
    Stages(parse, text).Body()
  }

  /** The body of the stages, case by case. */
  lemma {:induction false} StagesChooseBody(parse: Parser, text: string)
    ensures parse(text).Some? ==> Stages(parse, text).Body() == parse(text).value
    ensures parse(text).None? ==>
              forall span :: MaximalBraceSpan(text, span) && parse(span).Some? ==>
                Stages(parse, text).Body() == parse(span).value
    ensures parse(text).None? &&
            (forall span :: MaximalBraceSpan(text, span) ==> parse(span).None?) ==>
              Stages(parse, text).Body() == FallbackBody
  {
    match Stages(parse, text)
    case Strict(_) =>
    case Fallback =>
    case Extracted(c, v) =>
      forall span | MaximalBraceSpan(text, span) && parse(span).Some?
        ensures v == parse(span).value
      {
        MaximalBraceSpanIsWindow(text, span);
        MaximalBraceSpanIsWindow(text, c);
      }
  }

  /** Surrounding whitespace never matters to the decoder. */
  lemma {:induction false} DecodeIgnoresSurroundingWhitespace(parse: Parser, stdout: string)
    ensures Decode(parse, Trim(stdout)) == Decode(parse, stdout)
  {
    TrimIdempotent(stdout);
  }

  /** Output that parses as it stands is sent back unchanged, with no check
      of its shape or of the confidence range. */
  lemma {:induction false} StrictParseReturnedUnchanged(parse: Parser, stdout: string, v: Json)
    requires parse(Trim(stdout)) == Some(v)
    ensures Decode(parse, stdout) == v
  {
    var d := Stages(parse, Trim(stdout));
    assert d.Strict?;
  }

  /** A JSON payload surrounded by noise is recovered, as long as the noise
      before it holds no `{` and the noise after it no `}`. This covers a
      warning line printed ahead of the result. */
  lemma {:induction false} NoisyPayloadRecovered(parse: Parser, before: string, payload: string, after: string, v: Json)
    requires '{' !in before && '}' !in after
    requires |payload| >= 2 && payload[0] == '{' && payload[|payload| - 1] == '}'
    requires parse(payload) == Some(v)
    requires parse(Trim(before + payload + after)).None?
    ensures Decode(parse, before + payload + after) == v
  {
    var t := TrimmedAroundPayload(before, payload, after);
    PayloadExtracted(parse, t, payload, v);
  }

  /** The trimmed noisy text still has the payload as its maximal brace span. */
  lemma {:induction false} TrimmedAroundPayload(before: string, payload: string, after: string) returns (t: string)
    requires '{' !in before && '}' !in after
    requires |payload| >= 2 && payload[0] == '{' && payload[|payload| - 1] == '}'
    ensures t == Trim(before + payload + after)
    ensures MaximalBraceSpan(t, payload)
  {
    var lead := SplitAtTrimStart(before);
    var tail := SplitAtTrimEnd(after);
    BracedIsTrimmed(payload);
    TrimAroundCore(before, payload, after);
    NotInSecondPart('{', lead, TrimStart(before));
    NotInFirstPart('}', TrimEnd(after), tail);
    PayloadIsMaximalSpan(TrimStart(before), payload, TrimEnd(after));
    t := TrimStart(before) + payload + TrimEnd(after);
  }

  /** A text from `{` to `}` has no whitespace to trim at either end. */
  lemma {:induction false} BracedIsTrimmed(payload: string)
    requires |payload| >= 2 && payload[0] == '{' && payload[|payload| - 1] == '}'
    ensures Trimmed(payload)
  {
    WhitespaceIsLowOrHigh(payload[0]);
    WhitespaceIsLowOrHigh(payload[|payload| - 1]);
  }

  /** Membership facts about a concatenation, kept as lemmas so that the
      proofs calling them stay small. */
  lemma {:induction false} NotInSecondPart(c: char, a: string, b: string)
    requires c !in a + b
    ensures c !in b
  {
  }

  lemma {:induction false} NotInFirstPart(c: char, a: string, b: string)
    requires c !in a + b
    ensures c !in a
  {
  }

  /** When the strict parse fails, a parseable maximal brace span is what
      the stages return. */
  lemma {:induction false} PayloadExtracted(parse: Parser, t: string, payload: string, v: Json)
    requires MaximalBraceSpan(t, payload)
    requires parse(payload) == Some(v)
    requires parse(t).None?
    ensures Stages(parse, t).Body() == v
  {
    var d := Stages(parse, t);
    if d.Extracted? {
      MaximalBraceSpanIsWindow(t, payload);
      MaximalBraceSpanIsWindow(t, d.candidate);
    }
  }

  lemma {:induction false} PayloadIsMaximalSpan(head: string, payload: string, foot: string)
    requires '{' !in head && '}' !in foot
    requires |payload| >= 2 && payload[0] == '{' && payload[|payload| - 1] == '}'
    ensures MaximalBraceSpan(head + payload + foot, payload)
  {
    var t := head + payload + foot;
    var i, j := |head|, |head| + |payload|;
    assert t[i..j] == payload;
    assert t[..i] == head;
    assert t[j..] == foot;
    assert FirstOpenLastClose(t, i, j);
  }

  /** When the trimmed text already starts with `{` and ends with `}`, the
      second stage re-parses the same text, so it cannot rescue a failed
      strict parse. */
  lemma {:induction false} BracedTextGetsNoSecondChance(parse: Parser, text: string)
    requires |text| >= 2 && text[0] == '{' && text[|text| - 1] == '}'
    requires parse(text).None?
    ensures Stages(parse, text) == Fallback
  {
    assert text[0..|text|] == text;
    assert FirstOpenLastClose(text, 0, |text|);
    var d := Stages(parse, text);
    if d.Extracted? {
      MaximalBraceSpanIsWindow(text, text);
      MaximalBraceSpanIsWindow(text, d.candidate);
    }
  }

  /** Output without a `{` followed later by a `}` that does not parse as it
      stands degrades to the fixed result. */
  lemma {:induction false} NoBracesDegrades(parse: Parser, stdout: string)
    requires !OpensBeforeCloses(Trim(stdout))
    requires parse(Trim(stdout)).None?
    ensures Decode(parse, stdout) == FallbackBody
  {
    var t := Trim(stdout);
    if Stages(parse, t).Extracted? {
      MaximalBraceSpanIsWindow(t, Stages(parse, t).candidate);
    }
  }

  /** `JSON.parse` of a text that starts with `{` yields an object whenever it
      succeeds. */
  ghost predicate ObjectsFromBraces(parse: Parser) {
    forall s :: |s| > 0 && s[0] == '{' && parse(s).Some? ==> parse(s).value.JObject?
  }

  /** Under that property of the parser, only the strict stage can produce a
      body that is not an object: an extracted payload and the degraded
      result are both objects. */
  lemma {:induction false} NonObjectOnlyFromStrictParse(parse: Parser, text: string)
    requires ObjectsFromBraces(parse)
    ensures !Stages(parse, text).Strict? ==> Stages(parse, text).Body().JObject?
  {
    match Stages(parse, text)
    case Strict(_) =>
    case Extracted(c, v) =>
      assert |c| > 0 && c[0] == '{' && parse(c).Some?;
    case Fallback =>
      assert FallbackBody.JObject?;
  }
}

=== FILE: invoker.dfy ===
/** The predictor invocation as the route sees it: the fixed temporary path
    and arguments, and the accumulation of output chunks as they arrive. */
module Invoker {

  /** The fixed temporary file, relative to the server's directory. */
  const TempImagePath: string := "temp_image.jpg"

  const PredictorScript: string := "predict.py"

  /** The arguments the predictor is spawned with. */
  const PredictorArgs: seq<string> := [PredictorScript, TempImagePath]

  /** The chunks joined in arrival order: the stream's whole text. */
  function Flatten(chunks: seq<string>): string {
    if chunks == [] then [] else chunks[0] + Flatten(chunks[1..])
  }

  /** The `data` handler's `acc += chunk`, applied to each chunk in turn. */
  function Accumulate(acc: string, chunks: seq<string>): (r: string)
    ensures r == acc + Flatten(chunks)
    decreases |chunks|
  {
    if chunks == [] then acc else Accumulate(acc + chunks[0], chunks[1..])
  }

  lemma {:induction false} FlattenAppend(a: seq<string>, b: seq<string>)
    ensures Flatten(a + b) == Flatten(a) + Flatten(b)
    decreases |a|
  {
    if a == [] {
      assert a + b == b;
    } else {
      assert (a + b)[1..] == a[1..] + b;
      FlattenAppend(a[1..], b);
    }
  }

  /** Where the stream happens to split its output does not change the text:
      a chunk delivered in two pieces accumulates to the same result. */
  lemma {:induction false} SplitChunkInvisible(before: seq<string>, x: string, y: string, after: seq<string>)
    ensures Accumulate("", before + [x + y] + after) == Accumulate("", before + [x, y] + after)
  {
    FlattenAppend(before + [x + y], after);
    FlattenAppend(before, [x + y]);
    FlattenAppend(before + [x, y], after);
    FlattenAppend(before, [x, y]);
    assert [x, y][1..] == [y] && [y][1..] == [] && [x + y][1..] == [];
    assert Flatten([x, y]) == x + y;
    assert Flatten([x + y]) == x + y;
  }
}

=== FILE: js_string.dfy ===
/** The JavaScript string primitives the prediction route relies on:
    `String.prototype.trim`, `startsWith`, `indexOf`, `lastIndexOf` and
    `substring`, over strings of code points. */
module JsString {

  /** The code points ECMAScript classifies as WhiteSpace (tab, vertical
      tab, form feed, space, no-break space, byte order mark and the Unicode
      space separators) or LineTerminator (line feed, carriage return, line
      and paragraph separators): what `trim` strips from both ends. */
  const WhitespaceChars: seq<char> :=
    ['\t', '\n', '\U{000B}', '\U{000C}', '\r', ' ', '\U{00A0}', '\U{1680}',
     '\U{2000}', '\U{2001}', '\U{2002}', '\U{2003}', '\U{2004}', '\U{2005}',
     '\U{2006}', '\U{2007}', '\U{2008}', '\U{2009}', '\U{200A}',
     '\U{2028}', '\U{2029}', '\U{202F}', '\U{205F}', '\U{3000}', '\U{FEFF}']

  /** `c` occurs in `cs`, searched front to back. */
  predicate Occurs(c: char, cs: seq<char>) {
    cs != [] && (cs[0] == c || Occurs(c, cs[1..]))
  }

  lemma {:induction false} OccursIsMembership(c: char, cs: seq<char>)
    ensures Occurs(c, cs) <==> c in cs
  {
    if cs != [] {
      OccursIsMembership(c, cs[1..]);
      assert cs == [cs[0]] + cs[1..];
    }
  }

  predicate IsWhitespace(c: char) {
    Occurs(c, WhitespaceChars)
  }

  /** No whitespace code point lies between the space and the no-break
      space, so printable ASCII is never trimmed. */
  lemma {:induction false} WhitespaceIsLowOrHigh(c: char)
    ensures IsWhitespace(c) ==> c <= ' ' || c >= '\U{00A0}'
  {
    OccursIsMembership(c, WhitespaceChars);
    ListedIsLowOrHigh(c);
  }

  lemma {:induction false} ListedIsLowOrHigh(c: char)
    ensures c in WhitespaceChars ==> c <= ' ' || c >= '\U{00A0}'
  {
  }

  predicate AllWhitespace(s: string) {
    forall i :: 0 <= i < |s| ==> IsWhitespace(s[i])
  }

  /** Neither end of `s` is whitespace (vacuously so for the empty string). */
  predicate Trimmed(s: string) {
    s == [] || (!IsWhitespace(s[0]) && !IsWhitespace(s[|s| - 1]))
  }

  /** Drops the leading whitespace of `s`. */
  function TrimStart(s: string): (r: string)
    ensures |r| <= |s| && r == s[|s| - |r|..]
    ensures forall i :: 0 <= i < |s| - |r| ==> IsWhitespace(s[i])
    ensures r == [] || !IsWhitespace(r[0])
    decreases |s|
  {
    if |s| > 0 && IsWhitespace(s[0]) then TrimStart(s[1..]) else s
  }

  /** Drops the trailing whitespace of `s`. */
  function TrimEnd(s: string): (r: string)
    ensures |r| <= |s| && r == s[..|r|]
    ensures forall i :: |r| <= i < |s| ==> IsWhitespace(s[i])
    ensures r == [] || !IsWhitespace(r[|r| - 1])
    decreases |s|
  {
    if |s| > 0 && IsWhitespace(s[|s| - 1]) then TrimEnd(s[..|s| - 1]) else s
  }

  /** `s.trim()`: the text between the leading and the trailing whitespace. */
  function Trim(s: string): (r: string)
    ensures Trimmed(r)
    ensures |r| <= |s|
  {
    TrimEnd(TrimStart(s))
  }

  /** Whitespace in front of a text does not survive `TrimStart`. */
  lemma {:induction false} TrimStartSkipsWhitespace(lead: string, rest: string)
    requires AllWhitespace(lead)
    ensures TrimStart(lead + rest) == TrimStart(rest)
    decreases |lead|
  {
    if lead != [] {
      assert (lead + rest)[1..] == lead[1..] + rest;
      TrimStartSkipsWhitespace(lead[1..], rest);
    } else {
      assert lead + rest == rest;
    }
  }

  /** Whitespace behind a text does not survive `TrimEnd`. */
  lemma {:induction false} TrimEndSkipsWhitespace(core: string, tail: string)
    requires AllWhitespace(tail)
    ensures TrimEnd(core + tail) == TrimEnd(core)
    decreases |tail|
  {
    if tail != [] {
      var last := |tail| - 1;
      assert (core + tail)[..|core + tail| - 1] == core + tail[..last];
      TrimEndSkipsWhitespace(core, tail[..last]);
    } else {
      assert core + tail == core;
    }
  }

  /** `trim` is characterised by its decomposition: whatever whitespace
      surrounds a text whose ends are not whitespace, trimming returns that
      text. */
  lemma {:induction false} TrimRecoversCore(lead: string, core: string, tail: string)
    requires AllWhitespace(lead) && AllWhitespace(tail) && Trimmed(core)
    ensures Trim(lead + core + tail) == core
  {
    assert lead + core + tail == lead + (core + tail);
    TrimRecoversCoreOf(lead + core + tail, lead, core, tail);
  }

  lemma {:induction false} TrimRecoversCoreOf(s: string, lead: string, core: string, tail: string)
    requires s == lead + (core + tail)
    requires AllWhitespace(lead) && AllWhitespace(tail) && Trimmed(core)
    ensures Trim(s) == core
  {
    TrimStartSkipsWhitespace(lead, core + tail);
    if core == [] {
      assert core + tail == [] + tail;
      TrimStartSkipsWhitespace(tail, []);
      assert tail + [] == tail;
    } else {
      assert TrimStart(core + tail) == core + tail;
    }
    TrimEndSkipsWhitespace(core, tail);
  }

  /** Trimming a text whose middle part has non-whitespace ends only eats
      into the parts around it. */
  lemma {:induction false} TrimAroundCore(before: string, middle: string, after: string)
    requires middle != [] && Trimmed(middle)
    ensures Trim(before + middle + after) == TrimStart(before) + middle + TrimEnd(after)
  {
    var lead := SplitAtTrimStart(before);
    var tail := SplitAtTrimEnd(after);
    TrimWithin(before, middle, after, lead, TrimStart(before), TrimEnd(after), tail);
  }

  /** The same, with the whitespace around the middle part named. */
  lemma {:induction false} TrimWithin(before: string, middle: string, after: string,
                                      lead: string, head: string, foot: string, tail: string)
    requires before == lead + head && after == foot + tail
    requires AllWhitespace(lead) && AllWhitespace(tail)
    requires middle != [] && Trimmed(middle)
    requires head == [] || !IsWhitespace(head[0])
    requires foot == [] || !IsWhitespace(foot[|foot| - 1])
    ensures Trim(before + middle + after) == head + middle + foot
  {
    Regroup(lead, head, middle, foot, tail);
    TrimmedJoin(head, middle, foot);
    TrimRecoversCoreOf(before + middle + after, lead, head + middle + foot, tail);
  }

  /** `s` is its leading whitespace followed by `TrimStart(s)`. */
  lemma {:induction false} SplitAtTrimStart(s: string) returns (lead: string)
    ensures s == lead + TrimStart(s)
    ensures AllWhitespace(lead)
  {
    lead := s[..|s| - |TrimStart(s)|];
  }

  /** `s` is `TrimEnd(s)` followed by its trailing whitespace. */
  lemma {:induction false} SplitAtTrimEnd(s: string) returns (tail: string)
    ensures s == TrimEnd(s) + tail
    ensures AllWhitespace(tail)
  {
    tail := s[|TrimEnd(s)|..];
  }

  /** Reassociation of the five parts, kept as a lemma so that the proofs
      calling it stay small. */
  lemma {:induction false} Regroup(lead: string, head: string, middle: string, foot: string, tail: string)
    ensures (lead + head) + middle + (foot + tail) == lead + ((head + middle + foot) + tail)
  {
  }

  lemma {:induction false} TrimmedJoin(head: string, middle: string, foot: string)
    requires middle != [] && Trimmed(middle)
    requires head == [] || !IsWhitespace(head[0])
    requires foot == [] || !IsWhitespace(foot[|foot| - 1])
    ensures Trimmed(head + middle + foot)
  {
    var core := head + middle + foot;
    assert core[0] == if head == [] then middle[0] else head[0];
    assert core[|core| - 1] == if foot == [] then middle[|middle| - 1] else foot[|foot| - 1];
  }

  /** A text without whitespace at either end is left as it is. */
  lemma {:induction false} TrimmedIsFixed(s: string)
    requires Trimmed(s)
    ensures Trim(s) == s
  {
    assert TrimStart(s) == s;
  }

  /** Trimming twice is trimming once. */
  lemma {:induction false} TrimIdempotent(s: string)
    ensures Trim(Trim(s)) == Trim(s)
  {
    TrimmedIsFixed(Trim(s));
  }

  /** `s.startsWith(prefix)`, compared code point by code point. */
  function StartsWith(s: string, prefix: string): (r: bool)
    ensures r <==> |prefix| <= |s| && s[..|prefix|] == prefix
  {
    if prefix == [] then true
    else if s == [] then false
    else s[0] == prefix[0] && StartsWith(s[1..], prefix[1..])
  }

  /** `s.indexOf(c)`: the first position of `c`, or -1 when `c` does not occur. */
  function IndexOf(s: string, c: char): (i: int)
    ensures -1 <= i < |s|
    ensures i == -1 <==> c !in s
    ensures i >= 0 ==> s[i] == c && c !in s[..i]
  {
    if s == [] then -1
    else if s[0] == c then 0
    else
      var j := IndexOf(s[1..], c);
      assert s[1..][..j + 1] == s[1..j + 2] by { assert j + 2 <= |s| || j == -1; }
      if j < 0 then -1 else j + 1
  }

  /** `s.lastIndexOf(c)`: the last position of `c`, or -1 when `c` does not occur. */
  function LastIndexOf(s: string, c: char): (i: int)
    ensures -1 <= i < |s|
    ensures i == -1 <==> c !in s
    ensures i >= 0 ==> s[i] == c && c !in s[i + 1..]
  {
    if s == [] then -1
    else if s[|s| - 1] == c then |s| - 1
    else
      var j := LastIndexOf(s[..|s| - 1], c);
      if j < 0 then -1
      else
        assert s[j + 1..] == s[..|s| - 1][j + 1..] + [s[|s| - 1]];
        j
  }

  function Clamp(x: int, len: nat): (r: nat)
    ensures r <= len
    ensures 0 <= x <= len ==> r == x
  {
    if x < 0 then 0 else if x > len then len else x
  }

  /** `s.substring(start, end)`: both bounds clamped to the string, and the
      smaller one taken as the start. */
  function Substring(s: string, start: int, end: int): (r: string)
    ensures 0 <= start <= end <= |s| ==> r == s[start..end]
    ensures 0 <= end <= start <= |s| ==> r == s[end..start]
    ensures |r| <= |s|
  {
    var a := Clamp(start, |s|);
    var b := Clamp(end, |s|);
    if a <= b then s[a..b] else s[b..a]
  }
}

=== FILE: json_value.dfy ===
/** JSON values as the route sends them with `res.json`, and the fixed
    bodies the route itself builds. */
module JsonValue {

  /** A JSON value. Numbers are exact rationals; IEEE-754 rounding is not
      modelled. An object is modelled as the list of its members in the
      order the model is given them; the key enumeration order of JavaScript
      objects (integer-like keys first, a repeated key keeping its last
      value) is not modelled, since no property here depends on it. */
  datatype Json =
    | JNull
    | JBool(b: bool)
    | JNumber(n: real)
    | JString(s: string)
    | JArray(items: seq<Json>)
    | JObject(members: seq<(string, Json)>)

  /** The message of every infrastructure failure (write error, predictor failure). */
  const ProcessingError: string := "Error processing image"

  /** The message of the missing-upload rejection. */
  const NoImage: string := "No image uploaded"

  /** The note attached to the degraded result. */
  const FallbackNote: string := "Could not process result, using default values"

  /** The `{error: message}` envelope of a failed request. */
  function ErrorBody(message: string): (body: Json)
    ensures body.JObject? && |body.members| == 1
    ensures Lookup(body.members, "error") == [JString(message)]
  {
    JObject([("error", JString(message))])
  }

  /** The degraded result substituted when the predictor's output cannot be decoded. */
  const FallbackBody: Json :=
    JObject([("prediction", JString("UNKNOWN")),
             ("confidence", JNumber(50.0)),
             ("note", JString(FallbackNote))])

  /** The values stored under `key`, in member order. */
  function Lookup(members: seq<(string, Json)>, key: string): (vs: seq<Json>)
    ensures |vs| <= |members|
    ensures forall v :: v in vs ==> (key, v) in members
  {
    if members == [] then []
    else
      var rest := Lookup(members[1..], key);
      if members[0].0 == key then [members[0].1] + rest else rest
  }

  /** The degraded result reads as label UNKNOWN at confidence 50, with a
      note, and carries no `error` member. */
  lemma {:induction false} FallbackShape()
    ensures FallbackBody.JObject?
    ensures Lookup(FallbackBody.members, "prediction") == [JString("UNKNOWN")]
    ensures Lookup(FallbackBody.members, "confidence") == [JNumber(50.0)]
    ensures Lookup(FallbackBody.members, "note") == [JString(FallbackNote)]
    ensures Lookup(FallbackBody.members, "error") == []
  {
    var note := [("note", JString(FallbackNote))];
    var rest := [("confidence", JNumber(50.0))] + note;
    assert FallbackBody.members == [("prediction", JString("UNKNOWN"))] + rest;
    assert "prediction"[0] == 'p' && "confidence"[0] == 'c' && "note"[0] == 'n' && "error"[0] == 'e';
    assert note == [("note", JString(FallbackNote))] + [];
    LookupStep("note", JString(FallbackNote), [], "note");
    LookupStep("note", JString(FallbackNote), [], "confidence");
    LookupStep("note", JString(FallbackNote), [], "prediction");
    LookupStep("note", JString(FallbackNote), [], "error");
    LookupStep("confidence", JNumber(50.0), note, "note");
    LookupStep("confidence", JNumber(50.0), note, "confidence");
    LookupStep("confidence", JNumber(50.0), note, "prediction");
    LookupStep("confidence", JNumber(50.0), note, "error");
    LookupStep("prediction", JString("UNKNOWN"), rest, "note");
    LookupStep("prediction", JString("UNKNOWN"), rest, "confidence");
    LookupStep("prediction", JString("UNKNOWN"), rest, "prediction");
    LookupStep("prediction", JString("UNKNOWN"), rest, "error");
  }

  lemma {:induction false} LookupStep(k: string, v: Json, rest: seq<(string, Json)>, key: string)
    ensures Lookup([(k, v)] + rest, key) == (if k == key then [v] else []) + Lookup(rest, key)
  {
    assert ([(k, v)] + rest)[1..] == rest;
  }
}

=== FILE: optional.dfy ===
/** The absent-or-present value used for the results of JSON parsing and of
    file intake. */
module Optional {

  datatype Option<+T> = None | Some(value: T)

  /** A value or an error, for operations whose failure the caller handles. */
  datatype Result<+R, +E> = Success(value: R) | Failure(error: E)
}

=== FILE: predict_route.dfy ===
/** The `POST /api/predict` route as a pure function of everything outside
    its own logic: the uploaded file, whether the temporary file could be
    written, how the predictor ended and what it printed, and whether the
    temporary file could be removed. The route's side effects are recorded,
    in order, as a trace of events. */
module PredictRoute {
  import opened Optional
  import opened JsonValue
  import opened Upload
  import opened Invoker
  import opened Decoder

  /** How the call to `spawn` for the predictor turns out. */
  datatype SpawnOutcome =
    | Started       // a child process runs and, in this model, its `close` event arrives
    | ThrowsAtOnce  // `spawn` throws (errors other than EACCES, EAGAIN, EMFILE, ENFILE, ENOENT)
    | ErrorEvent    // the child never starts and an `error` event is emitted (EACCES, EAGAIN, ENOENT)

  /** What the environment decides for one request. */
  datatype Request = Request(
    upload: Option<FilePart>,    // the file part of the multipart body, if any
    writeSucceeds: bool,         // whether writing the temporary file returns normally
    spawn: SpawnOutcome,         // how starting the predictor turns out
    exitCode: Option<int>,       // the `close` event's code; None when a signal ended the predictor
    stdoutChunks: seq<string>,   // standard output, chunk by chunk in arrival order
    stderrChunks: seq<string>,   // standard error, chunk by chunk in arrival order
    unlinkSucceeds: bool)        // whether removing the temporary file returns normally

  /** A side effect of the route. `WriteTemp` and `UnlinkTemp` are attempts,
      recorded whether or not they succeed; `SpawnPredictor` is a `spawn`
      call that returned a child process object. */
  datatype Event =
    | WriteTemp(path: string, data: seq<byte>)
    | SpawnPredictor(args: seq<string>)
    | UnlinkTemp(path: string, removed: bool)
    | Respond(status: int)

  /** What the client receives: a reply from the route itself, an upload
      refusal handed to the framework's error handler, or nothing at all
      because the server process ended on an `error` event nobody listens
      for. */
  datatype Response =
    | Reply(status: int, body: Json)
    | Forwarded(error: UploadError)
    | Crashed

  datatype Exchange = Exchange(response: Response, trace: seq<Event>)

  /** The route answers at most once, and only as its last act. */
  ghost predicate RespondsLast(trace: seq<Event>) {
    forall i :: 0 <= i < |trace| && trace[i].Respond? ==> i == |trace| - 1
  }

  /** The predictor is only ever handed a file the route wrote before. */
  ghost predicate SpawnsWhatItWrote(trace: seq<Event>) {
    forall i :: 0 <= i < |trace| && trace[i].SpawnPredictor? ==>
      exists w :: 0 <= w < i && trace[w].WriteTemp? && trace[w].path in trace[i].args
  }

  /** Every spawn is followed by an attempt to remove the temporary file. */
  ghost predicate CleansUpAfterSpawn(trace: seq<Event>) {
    forall i :: 0 <= i < |trace| && trace[i].SpawnPredictor? ==>
      exists u :: i < u < |trace| && trace[u].UnlinkTemp? && trace[u].path == TempImagePath
  }

  ghost predicate ResourceDiscipline(trace: seq<Event>) {
    RespondsLast(trace) && SpawnsWhatItWrote(trace) && CleansUpAfterSpawn(trace)
  }

  /** The `close` callback once the temporary file has been removed (or
      not): any code other than 0, including the null code of a signal, is a
      failure; otherwise the decoded output is the reply. */
  function OnClose(parse: Parser, exitCode: Option<int>, stdout: string): (r: Response)
    ensures r.Reply?
    ensures r.status == 200 || r == Reply(500, ErrorBody(ProcessingError))
    ensures r.status == 200 <==> exitCode == Some(0)
    ensures exitCode == Some(0) ==> r == Reply(200, Decode(parse, stdout))
  {
    if exitCode != Some(0) then Reply(500, ErrorBody(ProcessingError))
    else Reply(200, Decode(parse, stdout))
  }

  /** The route, from the upload middleware to the reply. */
  function Handle(parse: Parser, req: Request): (x: Exchange)
    ensures RespondsLast(x.trace) && SpawnsWhatItWrote(x.trace)
    ensures !x.response.Crashed? ==> ResourceDiscipline(x.trace)
    ensures x.response.Crashed? ==> forall e :: e in x.trace ==> !e.Respond?
    ensures x.response.Forwarded? <==> x.trace == []
    ensures x.response.Reply? ==>
              && x.response.status in {200, 400, 500}
              && x.trace[|x.trace| - 1] == Respond(x.response.status)
  {
    match Intake(req.upload)
    case Failure(e) => Exchange(Forwarded(e), [])
    case Success(None) =>
      Exchange(Reply(400, ErrorBody(NoImage)), [Respond(400)])
    case Success(Some(file)) =>
      var write := WriteTemp(TempImagePath, file.buffer);
      if !req.writeSucceeds then
        Exchange(Reply(500, ErrorBody(ProcessingError)), [write, Respond(500)])
      else match req.spawn
      case ThrowsAtOnce =>
        Exchange(Reply(500, ErrorBody(ProcessingError)), [write, Respond(500)])
      case ErrorEvent =>
        var trace := [write, SpawnPredictor(PredictorArgs)];
        assert trace[0].path in trace[1].args;
        Exchange(Crashed, trace)
      case Started =>
        var stdout := Accumulate("", req.stdoutChunks);
        var stderr := Accumulate("", req.stderrChunks);  // only logged
        var reply := OnClose(parse, req.exitCode, stdout);
        var trace := [write, SpawnPredictor(PredictorArgs),
                      UnlinkTemp(TempImagePath, req.unlinkSucceeds), Respond(reply.status)];
        FullRunDisciplined(file.buffer, req.unlinkSucceeds, reply.status);
        Exchange(reply, trace)
  }

  /** The trace of a run that reaches the predictor keeps the discipline. */
  lemma {:induction false} FullRunDisciplined(data: seq<byte>, removed: bool, status: int)
    ensures ResourceDiscipline([WriteTemp(TempImagePath, data), SpawnPredictor(PredictorArgs),
                                UnlinkTemp(TempImagePath, removed), Respond(status)])
  {
    var trace := [WriteTemp(TempImagePath, data), SpawnPredictor(PredictorArgs),
                  UnlinkTemp(TempImagePath, removed), Respond(status)];
    assert trace[0].path in trace[1].args;
    assert trace[2].UnlinkTemp? && trace[2].path == TempImagePath;
  }

  /** With no file the route answers 400 at once; nothing is written,
      spawned or removed. */
  lemma {:induction false} NoFileIsBadRequest(parse: Parser, req: Request)
    requires req.upload.None?
    ensures Handle(parse, req).response == Reply(400, ErrorBody(NoImage))
    ensures forall e :: e in Handle(parse, req).trace ==> e.Respond?
  {
  }

  /** A refused upload never reaches the route: no file is written and no
      predictor is started. A non-image type is refused for what it is, an
      oversized image for its size. */
  lemma {:induction false} RefusedUploadNeverReachesPredictor(parse: Parser, req: Request, f: FilePart)
    requires req.upload == Some(f) && f.field == ImageField
    requires !JsString.StartsWith(f.mimeType, ImagePrefix) || |f.buffer| > MaxFileSize
    ensures Handle(parse, req).trace == []
    ensures !JsString.StartsWith(f.mimeType, ImagePrefix) ==>
              Handle(parse, req).response == Forwarded(NotAnImage(OnlyImagesMessage))
    ensures JsString.StartsWith(f.mimeType, ImagePrefix) ==>
              Handle(parse, req).response == Forwarded(FileTooLarge)
  {
  }

  /** A failed write of the temporary file answers 500 with the generic
      message, and the predictor is never started. */
  lemma {:induction false} WriteFailureIsServerError(parse: Parser, req: Request)
    requires Intake(req.upload).Success? && req.upload.Some?
    requires !req.writeSucceeds
    ensures Handle(parse, req).response == Reply(500, ErrorBody(ProcessingError))
    ensures forall e :: e in Handle(parse, req).trace ==> !e.SpawnPredictor?
  {
  }

  /** A `spawn` that throws lands in the outer catch: 500 with the generic
      message, and the temporary file already written is never removed. */
  lemma {:induction false} SpawnThrowIsServerError(parse: Parser, req: Request)
    requires Intake(req.upload).Success? && req.upload.Some? && req.writeSucceeds
    requires req.spawn == ThrowsAtOnce
    ensures Handle(parse, req).response == Reply(500, ErrorBody(ProcessingError))
    ensures Handle(parse, req).trace == [WriteTemp(TempImagePath, req.upload.value.buffer), Respond(500)]
    ensures forall e :: e in Handle(parse, req).trace ==> !e.UnlinkTemp?
  {
  }

  /** The route attaches no `error` listener to the child process, so a
      predictor that cannot be started ends the server: exactly then the
      client gets no reply, and the temporary file stays behind. */
  lemma {:induction false} UnstartablePredictorCrashes(parse: Parser, req: Request)
    ensures Handle(parse, req).response.Crashed? <==>
              Intake(req.upload).Success? && req.upload.Some? && req.writeSucceeds
              && req.spawn == ErrorEvent
    ensures Handle(parse, req).response.Crashed? ==>
              Handle(parse, req).trace
                == [WriteTemp(TempImagePath, req.upload.value.buffer), SpawnPredictor(PredictorArgs)]
  {
  }

  /** Whatever the file a spawn reads, the bytes written there are the
      uploaded ones. */
  lemma {:induction false} WritesTheUpload(parse: Parser, req: Request, e: Event)
    requires e in Handle(parse, req).trace && e.WriteTemp?
    ensures req.upload.Some? && e == WriteTemp(TempImagePath, req.upload.value.buffer)
  {
  }

  /** Whether the temporary file could be removed never changes the reply. */
  lemma {:induction false} UnlinkFailureSwallowed(parse: Parser, req: Request, removed: bool)
    ensures Handle(parse, req.(unlinkSucceeds := removed)).response == Handle(parse, req).response
  {
  }

  /** Standard error is never part of the reply. */
  lemma {:induction false} StderrNeverInReply(parse: Parser, req: Request, stderr: seq<string>)
    ensures Handle(parse, req.(stderrChunks := stderr)).response == Handle(parse, req).response
  {
  }

  /** A predictor that fails (non-zero code, or a signal) yields 500 with the
      generic message whatever it printed; the temporary file removal is
      still attempted before the reply. */
  lemma {:induction false} PredictorFailureIsServerError(parse: Parser, req: Request, stdout: seq<string>)
    requires Intake(req.upload).Success? && req.upload.Some? && req.writeSucceeds
    requires req.spawn == Started
    requires req.exitCode != Some(0)
    ensures Handle(parse, req).response == Reply(500, ErrorBody(ProcessingError))
    ensures Handle(parse, req.(stdoutChunks := stdout)).response == Handle(parse, req).response
    ensures Handle(parse, req).trace[2] == UnlinkTemp(TempImagePath, req.unlinkSucceeds)
  {
  }

  /** After exit code 0 the status is 200, never an error, whatever the
      predictor printed: its joined, trimmed output is decoded through the
      fallback chain. */
  lemma {:induction false} CleanExitIsOk(parse: Parser, req: Request)
    requires Intake(req.upload).Success? && req.upload.Some? && req.writeSucceeds
    requires req.spawn == Started
    requires req.exitCode == Some(0)
    ensures Handle(parse, req).response == Reply(200, Decode(parse, Flatten(req.stdoutChunks)))
  {
    assert Accumulate("", req.stdoutChunks) == Flatten(req.stdoutChunks);
  }

  /** An error status comes only from a missing file or an infrastructure
      failure; a decoding failure never produces one. */
  lemma {:induction false} ErrorStatusOnlyFromInfrastructure(parse: Parser, req: Request)
    requires Handle(parse, req).response.Reply?
    ensures Handle(parse, req).response.status == 400 <==> req.upload.None?
    ensures Handle(parse, req).response.status == 500 <==>
              req.upload.Some? && (!req.writeSucceeds || req.spawn == ThrowsAtOnce || req.exitCode != Some(0))
  {
  }

  /** How the predictor's output was split into chunks does not matter. */
  lemma {:induction false} ChunkingIrrelevant(parse: Parser, req: Request, chunks: seq<string>)
    requires Flatten(chunks) == Flatten(req.stdoutChunks)
    ensures Handle(parse, req.(stdoutChunks := chunks)) == Handle(parse, req)
  {
  }
}

=== FILE: upload.dfy ===
/** Upload intake: the multer configuration of the prediction route, which
    keeps the upload in memory, accepts one file in the `image` field,
    admits only `image/` MIME types and caps the size at 10 MiB. */
module Upload {
  import opened Optional
  import JsString

  newtype byte = x: int | 0 <= x < 256

  /** `limits.fileSize`: 10 MiB. */
  const MaxFileSize: nat := 10 * 1024 * 1024

  /** The single form field `upload.single` accepts. */
  const ImageField: string := "image"

  const ImagePrefix: string := "image/"

  const OnlyImagesMessage: string := "Only image files are allowed"

  /** One file part of the multipart body, buffered in memory. `mimeType` is
      `file.mimetype` as multer hands it to the filter: the part's declared
      Content-Type after the multipart parser lower-cased it and dropped its
      parameters. */
  datatype FilePart = FilePart(field: string, mimeType: string, buffer: seq<byte>)

  /** Why the upload middleware refused the request; the refusal goes to the
      framework's error handler and the route body never runs. */
  datatype UploadError =
    | UnexpectedField(field: string)
    | NotAnImage(message: string)
    | FileTooLarge

  /** The route's `fileFilter`: `Success(true)` admits the file, a failure
      carries the error passed to the callback. */
  function FileFilter(mimeType: string): (r: Result<bool, UploadError>)
    ensures r.Success? <==> |mimeType| >= |ImagePrefix| && mimeType[..|ImagePrefix|] == ImagePrefix
    ensures r.Success? ==> r.value
    ensures r.Failure? ==> r.error == NotAnImage(OnlyImagesMessage)
  {
    if JsString.StartsWith(mimeType, ImagePrefix) then Success(true)
    else Failure(NotAnImage(OnlyImagesMessage))
  }

  /** The filter admits every `image/...` type and only those; the match is
      case-sensitive on the filter's own input, which the multipart parser has
      already lower-cased. */
  lemma {:induction false} FilterAcceptsExactlyImageTypes(subtype: string, other: string)
    ensures FileFilter(ImagePrefix + subtype).Success?
    ensures FileFilter(other).Success? ==> other == ImagePrefix + other[|ImagePrefix|..]
    ensures FileFilter("text/plain") == Failure(NotAnImage(OnlyImagesMessage))
    ensures FileFilter("IMAGE/PNG").Failure?
  {
    assert (ImagePrefix + subtype)[..|ImagePrefix|] == ImagePrefix;
    assert "text/plain"[0] != ImagePrefix[0];
    assert "IMAGE/PNG"[0] != ImagePrefix[0];
  }

  /** What the upload middleware hands to the route: `Success(None)` when the
      request carries no file, `Success(Some(f))` for an admitted file, or the
      refusal. Checks run in the middleware's order: the field name, then the
      filter, then the size while the file streams in. */
  function Intake(part: Option<FilePart>): (r: Result<Option<FilePart>, UploadError>)
    ensures r == Success(None) <==> part.None?
    ensures r.Success? && r.value.Some? ==>
              && part == r.value
              && r.value.value.field == ImageField
              && FileFilter(r.value.value.mimeType).Success?
              && |r.value.value.buffer| <= MaxFileSize
    ensures r.Failure? <==>
              part.Some? && (|| part.value.field != ImageField
                             || FileFilter(part.value.mimeType).Failure?
                             || |part.value.buffer| > MaxFileSize)
  {
    match part
    case None => Success(None)
    case Some(f) =>
      if f.field != ImageField then Failure(UnexpectedField(f.field))
      else match FileFilter(f.mimeType)
        case Failure(e) => Failure(e)
        case Success(_) =>
          if |f.buffer| > MaxFileSize then Failure(FileTooLarge) else Success(Some(f))
  }

  /** A non-image file is refused by the filter even when it is also too
      large: the filter runs before any byte is counted. */
  lemma {:induction false} FilterBeforeSizeLimit(f: FilePart)
    requires f.field == ImageField
    requires FileFilter(f.mimeType).Failure?
    ensures Intake(Some(f)) == Failure(NotAnImage(OnlyImagesMessage))
  {
  }

  /** The ceiling is inclusive, as multer on busboy 0.x enforces it: a file
      of exactly 10 MiB = 10485760 bytes is admitted, one byte more is
      refused. */
  lemma {:induction false} SizeCeilingInclusive(f: FilePart)
    requires f.field == ImageField && FileFilter(f.mimeType).Success?
    ensures |f.buffer| <= 10485760 ==> Intake(Some(f)) == Success(Some(f))
    ensures |f.buffer| > 10485760 ==> Intake(Some(f)) == Failure(FileTooLarge)
  {
  }
}
